=== FILE: README.md ===
# Broadcast hub dispatcher, modelled in Dafny

This project models the core of a small WebSocket chat server written in Go
(`main.go`). The core has two parts:

- the connection pool's dispatcher loop `Pool.Start`, a single goroutine that
  owns the set of live clients and fans messages out to them;
- each client's read loop `Client.Read`, which decodes inbound frames, stamps
  the frame type on them, appends them to the global message history and
  submits them for broadcast. It unregisters the client when the loop ends.

Both are modelled as pure step functions over immutable state:

- `Messages`: the `Message` record `{type, message, name}` (fields `kind`,
  `body`, `name`). Also the join and leave notices the hub synthesises, and
  the frame-type stamp.
- `Pool`: the hub state. It holds the live set (`Pool.Clients`, a map used as
  a set) and the history (`messages`). The three `select` arms are
  `RegisterClient`, `UnregisterClient` and `BroadcastMessage`, combined in
  `Dispatch`. Each returns the next state and an outbox: the messages written
  to each recipient, in that recipient's order. Go walks its client map in
  random order, so fan-out is stated per recipient. `RunMembership` gives an
  independent characterisation of who is live after any sequence of events.
- `Delivery`: the write loops as Go runs them, one `WriteJSON` per recipient
  in an arbitrary iteration order. It is proved to give every recipient
  exactly what `Pool` assigns to it.
- `Session`: one pass of the read loop (`ReadFrame`) and the whole loop over
  a sequence of reads (`ReadLoop`), including the deferred `Unregister`.
  `System.SoloMatchesReadLoop` shows that a session running on its own in
  `System` agrees with it.
- `System`: sessions and the dispatcher interleaved one atomic action at a
  time. Channels are unbuffered, so a session that has submitted an event is
  blocked until the dispatcher takes it; `pending` records this. Every
  connection gets a fresh `*Client`, so an identity connects at most once,
  and only a connected session whose loop has not returned reads (`connected`
  and `ended`).
- `Scenarios`: concrete runs with three clients, and the interleaving in which
  a joiner is sent one message twice.

`json.Unmarshal` is a parameter of the model: any function from payload bytes
to an optional message. Socket writes are recorded deliveries. Reads are the
inputs of `ReadLoop` and the `Receive` actions of `System`.

## Model

| member | source | states |
|---|---|---|
| Messages.Stamp | main.go:192 | The stamped message carries the transport frame type as its type; its body and name are the decoded ones |
| Pool.NewPool | main.go:201-208 | A new pool has no live clients and an empty history |
| Messages.JoinNoticeInjective | main.go:217-220 | Two join notices are equal exactly when the joiners' display names are, so a notice identifies who joined |
| Messages.JoinIsNotLeave | main.go:217-239 | No display name makes a join notice equal to the leave notice |
| Pool.RegisterClient | main.go:213-232 | The joiner is live afterwards and nothing else changes in the live set. The size grows by one, or stays the same if the client was already live. History is unchanged. Every client live afterwards, joiner included, is sent the join notice `{1, name + " Joined ...", ""}` exactly once. After it, the joiner alone is sent the whole history in order; nobody else is sent anything |
| Pool.UnregisterClient | main.go:234-245 | The client is not live afterwards and the size drops by one exactly when it was live. Removing an absent client leaves the state unchanged. History is unchanged. The leave notice goes exactly once to every client still live, never to the removed one, and is sent even when nothing was removed |
| Pool.BroadcastMessage | main.go:247-251 | The state is unchanged. The message, unmodified, is sent exactly once to every live client and to nobody else |
| Pool.Dispatch | main.go:210-254 | Whatever the event, the history is unchanged and only clients live afterwards are written to. Only `Register` adds to the live set and only `Unregister` removes from it |
| Pool.Run | main.go:210-254 | Any sequence of dispatcher events leaves the history as it was: join and leave notices are never recorded |
| Pool.RunMembership | main.go:201-245 | Starting from `NewPool`, a client is live after a sequence of events exactly when some `Register` of it has no later `Unregister` of it |
| Delivery.FanOut | main.go:226-228 | A map-range write loop sends the message exactly once to each member of the set and nothing to anyone else, whatever the iteration order |
| Delivery.ReplayHistory | main.go:230-232 | The replay loop writes the whole history to the joiner alone, in history order |
| Delivery.RegisterInOrder | main.go:213-232 | The Go-order writes of the `Register` arm give each client exactly what `RegisterClient` assigns to it, and nothing to anyone else |
| Delivery.UnregisterInOrder | main.go:234-245 | The Go-order writes of the `Unregister` arm give each client exactly what `UnregisterClient` assigns to it |
| Delivery.BroadcastInOrder | main.go:247-251 | The Go-order writes of the `Broadcast` arm give each client exactly what `BroadcastMessage` assigns to it |
| Delivery.DispatchInOrder | main.go:210-254 | For every event, the state after the Go-order writes equals `Dispatch`'s, and every client receives exactly its `Dispatch` outbox |
| Session.ReadFrame | main.go:179-192 | A pass yields a message exactly when the read succeeded and the payload decoded. The message's type is the frame type, and its body and name are the decoded ones |
| Session.ReadLoop | main.go:172-199 | History grows by exactly the forwarded messages, in order. The i-th submission is the i-th frame's stamped message. The loop has exited exactly when some read or decode failed. On exit the last submission is the one `Unregister` of the client; without an exit there is none and every frame was forwarded |
| Session.ExitIsFinal | main.go:178-191 | After a failed read or decode, later frames are never read: the loop's outcome ignores them |
| System.Step | main.go:179-194 | An identity connects at most once, since each handler builds a fresh `*Client` (main.go:118-124); the ended set only grows and only a connected session's own failed read adds to it. A read by a session that never connected, or whose loop has returned, changes nothing. Only a read changes the history, and only by appending one message: the stamped decoding of the frame read by a connected session that is neither blocked nor ended. That session is then blocked submitting exactly that message for broadcast |
| System.Execute | main.go:193 | Over any interleaving the history only grows, by at most one message per action |
| System.ConnectReceived | main.go:213-232 | A connecting client, handed to `Register` by its handler (main.go:118-124), is registered at once. Each client's inbox gains the join notice if it is live afterwards, and the joiner's also gains the history replay |
| System.AcceptBroadcastReceived | main.go:247-251 | When the dispatcher takes a pending broadcast, each live client's inbox gains that message once |
| System.AcceptUnregisterReceived | main.go:234-245 | When the dispatcher takes a pending unregistration, each client still live gains one leave notice |
| System.ExecuteKeepsConsistent | main.go:172-176 | Every action keeps sessions and the live set in step: each connection is live or has ended its loop. A blocked session hands over its own `Unregister` exactly when its loop has ended, and a broadcast otherwise. An ended session with nothing left to hand over is not live |
| System.ReachableConsistent | main.go:118-125 | Every world reachable from the start, by any interleaving, is consistent in that sense |
| System.EndedSessionIsSilent | main.go:178-191 | Once a session's loop has returned, dropping all of that session's later reads from a run leaves the final world unchanged |
| System.SoloMatchesReadLoop | main.go:172-199 | A connected session running on its own, each read followed by the dispatcher taking its hand-off, leaves exactly the history `Session.ReadLoop` computes. Its loop has returned exactly when `ReadLoop` reports it closed, and then the deferred `Unregister` has removed it from the live set |
| System.ExecuteAppendsBeforeFanOut | main.go:193-194 | Over any interleaving, every broadcast waiting for the dispatcher is already in the history |
| Scenarios.AliceJoinsAlone | main.go:213-232 | A client joining an empty hub is sent its own join notice and an empty replay |
| Scenarios.ChatSession | main.go:172-254 | alice and bob join, alice sends "hi", carol joins, bob's read fails. Each client's inbox, the live set {alice, carol} and the one-entry history are exactly as stated |
| Scenarios.JoinDuringBroadcastDuplicates | main.go:193-232 | A client that registers between a session's append and the dispatcher taking that broadcast is sent the message twice: once in the replay, once in the fan-out |

## Left out

- HTTP route wiring, template rendering and server start-up (`TemplateRegistry.Render`, `main`, main.go:45-87): I/O over echo and `html/template`.
- WebSocket upgrade and the handlers `wsHandler`/`wsHandler2` (main.go:89-127): socket I/O. Only their hand-off of the new client to the `Register` channel is modelled, as the `Connect` action.
- The unused echo loops `Reader` and `Writer` (main.go:129-170): socket I/O, not reachable from the routes.
- JSON encoding and decoding: `json.Unmarshal` is an arbitrary partial function given as a parameter. `WriteJSON` is a recorded delivery; its errors are ignored by the code, so writes never fail in the model.
- Closing the connection in the teardown (main.go:175): I/O with no effect on the hub state.
- Blocking of the dispatcher on a slow client's write: each `select` arm is one atomic step.
- System.Step: `Connect` performs the hand-off to `Register` (main.go:124) and the whole `Register` arm (main.go:213-232) as one step. In the code the handler enters `client.Read()` as soon as the dispatcher has received the client, while the arm is still inserting and fanning out. A joiner's first frame can therefore be appended (main.go:193) before its own history replay (main.go:230), and the joiner is then sent its own message twice, by replay and by fan-out. The model does not produce that interleaving; it produces only the duplicate caused by another session's pending broadcast.
- The unsynchronised access to the global `messages` from session goroutines (main.go:193) and the dispatcher (main.go:230): each append and each replay is atomic in the model.
- Logging and `fmt.Println` output throughout.
- The `Client.ID` field (main.go:38): it is never set or read; the identity of a client is the pointer, modelled as `ClientId`.

Behaviour of the code worth noting, which the model keeps:

- Registration does not require the client to be absent; re-registering a live client is allowed.
- The history append is done by the session's read loop before it submits the broadcast, not by the dispatcher.
- Fan-out writes block; there is no best-effort or bounded delivery.
- A client that registers while a broadcast is pending is sent that message twice (`Scenarios.JoinDuringBroadcastDuplicates`).

=== FILE: delivery.dfy ===
/** The dispatcher's write loops as Go runs them (main.go:226-231, 243-244,
    249-250): one `WriteJSON` per recipient, the recipients taken in whatever
    order the client map yields them. The log of writes these methods produce
    is shown to give every recipient exactly what the step functions of
    module `Pool` promise it. */
module Delivery {
  import opened Messages
  import opened Pool

  /** One `WriteJSON` call: message `msg` written to client `to`. */
  datatype Write = Write(to: ClientId, msg: Message)

  /** What client `c` receives from a log of writes, in write order. */
  function Inbox(log: seq<Write>, c: ClientId): seq<Message>
    decreases |log|
  {
    if |log| == 0 then []
    else
      var d := log[|log| - 1];
      Inbox(log[..|log| - 1], c) + (if d.to == c then [d.msg] else [])
  }

  /** Appending one write extends only its recipient's inbox. */
  lemma InboxSnoc(log: seq<Write>, d: Write, c: ClientId)
    ensures Inbox(log + [d], c) == Inbox(log, c) + (if d.to == c then [d.msg] else [])
  {
    assert (log + [d])[..|log|] == log;
  }

  /** Running one write log after another concatenates every inbox. */
  lemma {:induction false} InboxAppend(a: seq<Write>, b: seq<Write>, c: ClientId)
    ensures Inbox(a + b, c) == Inbox(a, c) + Inbox(b, c)
    decreases |b|
  {
    if |b| > 0 {
      var n := |b| - 1;
      var front := b[..n];
      assert a + b == (a + front) + [b[n]];
      assert b == front + [b[n]];
      InboxAppend(a, front, c);
      InboxSnoc(a + front, b[n], c);
      InboxSnoc(front, b[n], c);
    } else {
      assert a + b == a;
    }
  }

  /** The `for c := range p.Clients { c.Conn.WriteJSON(m) }` loop, for any
      iteration order: every member of `clients` gets `m` exactly once and
      nobody else gets anything. */
  method FanOut(clients: set<ClientId>, m: Message) returns (log: seq<Write>)
    ensures forall c :: Inbox(log, c) == if c in clients then [m] else []
  {
    log := [];
    var pending := clients;
    while pending != {}
      invariant pending <= clients
      invariant forall c :: Inbox(log, c) == if c in clients && c !in pending then [m] else []
      decreases pending
    {
      var next :| next in pending;
      FanOutStep(log, clients, pending, next, m);
      log := log + [Write(next, m)];
      pending := pending - {next};
    }
  }

  /** One more write of `m`, to a client still waiting for it. */
  lemma FanOutStep(log: seq<Write>, clients: set<ClientId>, pending: set<ClientId>, next: ClientId, m: Message)
    requires pending <= clients && next in pending
    requires forall c :: Inbox(log, c) == if c in clients && c !in pending then [m] else []
    ensures forall c :: Inbox(log + [Write(next, m)], c)
                        == if c in clients && c !in pending - {next} then [m] else []
  {
    forall c ensures Inbox(log + [Write(next, m)], c)
                     == if c in clients && c !in pending - {next} then [m] else []
    {
      InboxSnoc(log, Write(next, m), c);
    }
  }

  /** The `for _, m := range messages { client.Conn.WriteJSON(m) }` loop:
      the whole history, in history order, to the joiner alone. */
  method ReplayHistory(id: ClientId, history: seq<Message>) returns (log: seq<Write>)
    ensures forall c :: Inbox(log, c) == if c == id then history else []
  {
    log := [];
    var i := 0;
    while i < |history|
      invariant 0 <= i <= |history|
      invariant forall c :: Inbox(log, c) == if c == id then history[..i] else []
    {
      var d := Write(id, history[i]);
      forall c ensures Inbox(log + [d], c) == Inbox(log, c) + (if d.to == c then [d.msg] else []) {
        InboxSnoc(log, d, c);
      }
      assert history[..i + 1] == history[..i] + [history[i]];
      log := log + [d];
      i := i + 1;
    }
  }

  /** The `Register` arm with its writes in Go's order (main.go:213-232). */
  method RegisterInOrder(h: Hub, id: ClientId, name: string) returns (h': Hub, log: seq<Write>)
    ensures h' == RegisterClient(h, id, name).hub
    ensures forall c :: Inbox(log, c) == Received(RegisterClient(h, id, name).outbox, c)
  {
    h' := Hub(h.clients + {id}, h.history);
    var notices := FanOut(h'.clients, JoinNotice(name));
    var replay := ReplayHistory(id, h.history);
    log := notices + replay;
    ghost var expected := RegisterClient(h, id, name).outbox;
    forall c ensures Inbox(log, c) == Received(expected, c) {
      InboxAppend(notices, replay, c);
      assert Inbox(notices, c) == if c in h'.clients then [JoinNotice(name)] else [];
      assert Inbox(replay, c) == if c == id then h.history else [];
    }
  }

  /** The `Unregister` arm with its writes in Go's order (main.go:234-245). */
  method UnregisterInOrder(h: Hub, id: ClientId) returns (h': Hub, log: seq<Write>)
    ensures h' == UnregisterClient(h, id).hub
    ensures forall c :: Inbox(log, c) == Received(UnregisterClient(h, id).outbox, c)
  {
    h' := Hub(h.clients - {id}, h.history);
    log := FanOut(h'.clients, LeaveNotice);
  }

  /** The `Broadcast` arm with its writes in Go's order (main.go:247-251). */
  method BroadcastInOrder(h: Hub, m: Message) returns (h': Hub, log: seq<Write>)
    ensures h' == BroadcastMessage(h, m).hub
    ensures forall c :: Inbox(log, c) == Received(BroadcastMessage(h, m).outbox, c)
  {
    h' := h;
    log := FanOut(h.clients, m);
  }

  /** One iteration of `Pool.Start` with its writes in Go's order: the state
      it leaves is `Dispatch`'s, and whichever order the client map is walked
      in, each client receives exactly the messages `Dispatch` assigns to it. */
  method DispatchInOrder(h: Hub, ev: PoolEvent) returns (h': Hub, log: seq<Write>)
    ensures h' == Dispatch(h, ev).hub
    ensures forall c :: Inbox(log, c) == Received(Dispatch(h, ev).outbox, c)
  {
    match ev
    case Register(id, name) =>
      h', log := RegisterInOrder(h, id, name);
    case Unregister(id) =>
      h', log := UnregisterInOrder(h, id);
    case Broadcast(m) =>
      h', log := BroadcastInOrder(h, m);
  }
}

=== FILE: messages.dfy ===
/** The value records exchanged between the hub and its clients (main.go:24-28).
    On the wire a message is the JSON object
    `{"type": <int>, "message": <string>, "name": <string>}`. */
module Messages {

  /** One chat message. `kind` is the wire field `type`, `body` is `message`
      and `name` is the sender's display name (empty for system notices). */
  datatype Message = Message(kind: int, body: string, name: string)

  /** The `type` value the hub puts on the lifecycle notices it synthesises. */
  const InfoKind: int := 1

  /** The notice fanned out when the client called `name` registers. */
  function JoinNotice(name: string): Message
  {
    Message(InfoKind, name + JoinSuffix, "")
  }

  const JoinSuffix: string := " Joined ..."

  /** The notice fanned out when a client unregisters; it does not name the client. */
  const LeaveNotice: Message := Message(InfoKind, "User disconnected ...", "")

  /** A received payload with its `type` overwritten by the transport frame type. */
  function Stamp(m: Message, frameType: int): (r: Message)
    ensures r.kind == frameType
    ensures r.body == m.body && r.name == m.name
  {
    m.(kind := frameType)
  }

  /** The join notice names its client unambiguously: two clients' notices are
      equal only when their display names are. */
  lemma JoinNoticeInjective(a: string, b: string)
    ensures JoinNotice(a) == JoinNotice(b) <==> a == b
  {
    if JoinNotice(a) == JoinNotice(b) {
      var s := a + JoinSuffix;
      assert s == b + JoinSuffix;
      assert |a| == |b|;
      assert a == s[..|a|];
      assert b == (b + JoinSuffix)[..|b|];
    }
  }

  /** A join notice is never mistaken for the leave notice, whatever the name. */
  lemma JoinIsNotLeave(name: string)
    ensures JoinNotice(name) != LeaveNotice
  {
    var s := name + JoinSuffix;
    if |s| == |LeaveNotice.body| {
      assert s[|s| - 11] == ' ';
      assert LeaveNotice.body[|s| - 11] == 'n';
    }
  }
}

=== FILE: pool.dfy ===
/** The dispatcher of `Pool.Start` (main.go:210-254). Each arm of its `select`
    runs to completion in the single dispatcher goroutine, so each is modelled
    as a pure step from the hub state to the next state plus the messages it
    writes to each recipient. Go iterates its client map in random order, so
    fan-out is described per recipient, never as one ordered list. */
module Pool {
  import opened Messages

  /** The identity of one client session (the `*Client` pointer in Go). */
  type ClientId = nat

  /** Everything the dispatcher reads or writes: the live set (`Pool.Clients`,
      a map used as a set) and the global message history (`messages`). */
  datatype Hub = Hub(clients: set<ClientId>, history: seq<Message>)

  /** The three channels `Pool.Start` selects on. */
  datatype PoolEvent =
    | Register(id: ClientId, name: string)
    | Unregister(id: ClientId)
    | Broadcast(msg: Message)

  /** The messages one step writes, per recipient, in the order that
      recipient's connection receives them. */
  type Outbox = map<ClientId, seq<Message>>

  /** The outcome of one dispatcher step. */
  datatype Effect = Effect(hub: Hub, outbox: Outbox)

  /** What client `c` is sent by an outbox (nothing when it is not a key). */
  function Received(out: Outbox, c: ClientId): seq<Message>
  {
    if c in out then out[c] else []
  }

  /** The state `NewPool` (main.go:201-208) and the `messages` initialiser
      (main.go:22) set up: no clients, empty history. */
  function NewPool(): (r: Hub)
    ensures r.clients == {} && r.history == []
  {
    Hub({}, [])
  }

  /** One write of `m` to every member of `recipients`. */
  function Fan(recipients: set<ClientId>, m: Message): (out: Outbox)
    ensures forall c :: Received(out, c) == if c in recipients then [m] else []
  {
    map c | c in recipients :: [m]
  }

  /** The `Register` arm: insert the client, send the join notice to every
      live client including the joiner, then replay the history to the joiner
      alone. The notice is not appended to the history. */
  function RegisterClient(h: Hub, id: ClientId, name: string): (r: Effect)
    ensures id in r.hub.clients
    ensures r.hub.clients == h.clients + {id}
    ensures |r.hub.clients| == |h.clients| + (if id in h.clients then 0 else 1)
    ensures r.hub.history == h.history
    ensures forall c :: Received(r.outbox, c)
                          == (if c in r.hub.clients then [JoinNotice(name)] else [])
                             + (if c == id then h.history else [])
  {
    var live := h.clients + {id};
    assert id in h.clients ==> live == h.clients;
    var notices := Fan(live, JoinNotice(name));
    Effect(Hub(live, h.history), notices[id := notices[id] + h.history])
  }

  /** The `Unregister` arm: delete the client (a no-op when it is absent), then
      send the leave notice to every client that remains. The notice is sent
      even when nothing was deleted, and is not appended to the history. */
  function UnregisterClient(h: Hub, id: ClientId): (r: Effect)
    ensures id !in r.hub.clients
    ensures r.hub.clients == h.clients - {id}
    ensures |r.hub.clients| == |h.clients| - (if id in h.clients then 1 else 0)
    ensures id !in h.clients ==> r.hub == h
    ensures r.hub.history == h.history
    ensures Received(r.outbox, id) == []
    ensures forall c :: Received(r.outbox, c)
                          == if c in h.clients && c != id then [LeaveNotice] else []
  {
    var live := h.clients - {id};
    Effect(Hub(live, h.history), Fan(live, LeaveNotice))
  }

  /** The `Broadcast` arm: write the message, unmodified, once to every live
      client. The state is untouched: the sender already appended the message
      to the history before submitting it. */
  function BroadcastMessage(h: Hub, m: Message): (r: Effect)
    ensures r.hub == h
    ensures forall c :: Received(r.outbox, c) == if c in h.clients then [m] else []
  {
    Effect(h, Fan(h.clients, m))
  }

  /** One iteration of the `select` loop. Whatever the event, the dispatcher
      leaves the history alone and writes only to clients live afterwards. */
  function Dispatch(h: Hub, ev: PoolEvent): (r: Effect)
    ensures r.hub.history == h.history
    ensures forall c :: c in r.outbox ==> c in r.hub.clients
    ensures !ev.Register? ==> r.hub.clients <= h.clients
    ensures !ev.Unregister? ==> h.clients <= r.hub.clients
  {
    match ev
    case Register(id, name) => RegisterClient(h, id, name)
    case Unregister(id) => UnregisterClient(h, id)
    case Broadcast(m) => BroadcastMessage(h, m)
  }

  /** The hub after the dispatcher has consumed `evs` in order. */
  function Run(h: Hub, evs: seq<PoolEvent>): (r: Hub)
    ensures r.history == h.history
    decreases |evs|
  {
    if |evs| == 0 then h
    else Dispatch(Run(h, evs[..|evs| - 1]), evs[|evs| - 1]).hub
  }

  predicate IsRegister(ev: PoolEvent, c: ClientId)
  {
    ev.Register? && ev.id == c
  }

  predicate IsUnregister(ev: PoolEvent, c: ClientId)
  {
    ev.Unregister? && ev.id == c
  }

  /** Reference definition of membership: `c` registered at some point and
      was not unregistered afterwards. */
  ghost predicate StillJoined(evs: seq<PoolEvent>, c: ClientId)
  {
    exists i :: 0 <= i < |evs| && IsRegister(evs[i], c) &&
      forall j :: i < j < |evs| ==> !IsUnregister(evs[j], c)
  }

  /** The reference definition, peeled at its last event. */
  lemma StillJoinedSnoc(evs: seq<PoolEvent>, c: ClientId)
    requires |evs| > 0
    ensures StillJoined(evs, c) <==>
              IsRegister(evs[|evs| - 1], c)
              || (!IsUnregister(evs[|evs| - 1], c) && StillJoined(evs[..|evs| - 1], c))
  {
    var n := |evs| - 1;
    var prefix := evs[..n];
    if StillJoined(evs, c) && !IsRegister(evs[n], c) {
      var i :| 0 <= i < |evs| && IsRegister(evs[i], c) &&
        forall j :: i < j < |evs| ==> !IsUnregister(evs[j], c);
      assert i < n;
      assert IsRegister(prefix[i], c);
      assert forall j :: i < j < n ==> !IsUnregister(prefix[j], c) by {
        forall j | i < j < n ensures !IsUnregister(prefix[j], c) {
          assert prefix[j] == evs[j];
        }
      }
    }
    if IsRegister(evs[n], c) {
      assert 0 <= n < |evs| && IsRegister(evs[n], c);
    } else if !IsUnregister(evs[n], c) && StillJoined(prefix, c) {
      var i :| 0 <= i < n && IsRegister(prefix[i], c) &&
        forall j :: i < j < n ==> !IsUnregister(prefix[j], c);
      assert IsRegister(evs[i], c);
      assert forall j :: i < j < |evs| ==> !IsUnregister(evs[j], c) by {
        forall j | i < j < |evs| ensures !IsUnregister(evs[j], c) {
          if j < n {
            assert evs[j] == prefix[j];
          }
        }
      }
    }
  }

  /** Starting from `NewPool`, a client is live exactly when it registered at
      some point and was not unregistered afterwards. */
  lemma {:induction false} RunMembership(evs: seq<PoolEvent>, c: ClientId)
    ensures c in Run(NewPool(), evs).clients <==> StillJoined(evs, c)
    decreases |evs|
  {
    if |evs| > 0 {
      var n := |evs| - 1;
      RunMembership(evs[..n], c);
      StillJoinedSnoc(evs, c);
    }
  }
}

=== FILE: scenarios.dfy ===
/** Concrete runs of the hub: three clients joining, chatting and leaving,
    and the interleaving in which a joiner is sent one message twice. Each
    action is taken in a lemma of its own, from one snapshot of the world to
    the next. */
module Scenarios {
  import opened Wrappers
  import opened Messages
  import opened Pool
  import opened Session
  import opened System

  const Alice: ClientId := 0
  const Bob: ClientId := 1
  const Carol: ClientId := 2

  /** alice's "hi" as decoded from her payload. */
  const Greeting: Message := Message(0, "hi", "alice")

  /** The greeting as broadcast, once the frame type `t` is stamped on it. */
  function Hi(t: int): Message
  {
    Message(t, "hi", "alice")
  }

  /** What the world looks like, as far as the three clients can tell. */
  predicate Snapshot(w: World, hub: Hub, pending: map<ClientId, PoolEvent>, ended: set<ClientId>,
                     connected: set<ClientId>, alice: seq<Message>, bob: seq<Message>, carol: seq<Message>)
  {
    && w.hub == hub && w.pending == pending && w.ended == ended && w.connected == connected
    && Received(w.inboxes, Alice) == alice
    && Received(w.inboxes, Bob) == bob
    && Received(w.inboxes, Carol) == carol
  }

  lemma ConnectStage(w: World, id: ClientId, name: string, decode: Decoder,
                     hub: Hub, pending: map<ClientId, PoolEvent>, ended: set<ClientId>, connected: set<ClientId>,
                     alice: seq<Message>, bob: seq<Message>, carol: seq<Message>,
                     live: set<ClientId>, joined: set<ClientId>)
    requires Snapshot(w, hub, pending, ended, connected, alice, bob, carol)
    requires id !in connected
    requires live == hub.clients + {id} && joined == connected + {id}
    ensures Snapshot(Step(w, Connect(id, name), decode),
                     Hub(live, hub.history), pending, ended, joined,
                     alice + ((if Alice in live then [JoinNotice(name)] else [])
                              + (if Alice == id then hub.history else [])),
                     bob + ((if Bob in live then [JoinNotice(name)] else [])
                            + (if Bob == id then hub.history else [])),
                     carol + ((if Carol in live then [JoinNotice(name)] else [])
                              + (if Carol == id then hub.history else [])))
  {
    ConnectEffect(w, id, name, decode);
    ConnectReceived(w, id, name, decode, Alice);
    ConnectReceived(w, id, name, decode, Bob);
    ConnectReceived(w, id, name, decode, Carol);
  }

  lemma BroadcastStage(w: World, id: ClientId, m: Message, decode: Decoder,
                       hub: Hub, pending: map<ClientId, PoolEvent>, ended: set<ClientId>, connected: set<ClientId>,
                       alice: seq<Message>, bob: seq<Message>, carol: seq<Message>)
    requires Snapshot(w, hub, pending, ended, connected, alice, bob, carol)
    requires id in pending && pending[id] == Broadcast(m)
    ensures Snapshot(Step(w, Accept(id), decode), hub, pending - {id}, ended, connected,
                     alice + (if Alice in hub.clients then [m] else []),
                     bob + (if Bob in hub.clients then [m] else []),
                     carol + (if Carol in hub.clients then [m] else []))
  {
    AcceptEffect(w, id, decode);
    AcceptBroadcastReceived(w, id, m, decode, Alice);
    AcceptBroadcastReceived(w, id, m, decode, Bob);
    AcceptBroadcastReceived(w, id, m, decode, Carol);
  }

  lemma LeaveStage(w: World, id: ClientId, decode: Decoder,
                   hub: Hub, pending: map<ClientId, PoolEvent>, ended: set<ClientId>, connected: set<ClientId>,
                   alice: seq<Message>, bob: seq<Message>, carol: seq<Message>)
    requires Snapshot(w, hub, pending, ended, connected, alice, bob, carol)
    requires id in pending && pending[id] == Unregister(id)
    ensures Snapshot(Step(w, Accept(id), decode), Hub(hub.clients - {id}, hub.history), pending - {id}, ended, connected,
                     alice + (if Alice in hub.clients && Alice != id then [LeaveNotice] else []),
                     bob + (if Bob in hub.clients && Bob != id then [LeaveNotice] else []),
                     carol + (if Carol in hub.clients && Carol != id then [LeaveNotice] else []))
  {
    AcceptEffect(w, id, decode);
    AcceptUnregisterReceived(w, id, decode, Alice);
    AcceptUnregisterReceived(w, id, decode, Bob);
    AcceptUnregisterReceived(w, id, decode, Carol);
  }

  lemma GreetingStage(w: World, t: int, payload: Bytes, decode: Decoder,
                      hub: Hub, pending: map<ClientId, PoolEvent>, ended: set<ClientId>, connected: set<ClientId>,
                      alice: seq<Message>, bob: seq<Message>, carol: seq<Message>)
    requires decode(payload) == Some(Greeting)
    requires Snapshot(w, hub, pending, ended, connected, alice, bob, carol)
    requires Alice in connected && Alice !in pending && Alice !in ended
    ensures Snapshot(Step(w, Receive(Alice, Frame(t, payload)), decode),
                     Hub(hub.clients, hub.history + [Hi(t)]), pending[Alice := Broadcast(Hi(t))], ended, connected,
                     alice, bob, carol)
  {
    ReceiveEffect(w, Alice, Frame(t, payload), decode, Hi(t));
  }

  lemma FailureStage(w: World, id: ClientId, decode: Decoder,
                     hub: Hub, pending: map<ClientId, PoolEvent>, ended: set<ClientId>, connected: set<ClientId>,
                     alice: seq<Message>, bob: seq<Message>, carol: seq<Message>)
    requires Snapshot(w, hub, pending, ended, connected, alice, bob, carol)
    requires id in connected && id !in pending && id !in ended
    ensures Snapshot(Step(w, Receive(id, ReadFailure), decode),
                     hub, pending[id := Unregister(id)], ended + {id}, connected, alice, bob, carol)
  {
    ReceiveFailure(w, id, ReadFailure, decode);
  }

  /** alice joins an empty hub: she is sent her own join notice and an empty
      history replay. */
  lemma AliceJoinsAlone(decode: Decoder)
    ensures Snapshot(Execute(Start(), [Connect(Alice, "alice")], decode),
                     Hub({Alice}, []), map[], {}, {Alice}, [JoinNotice("alice")], [], [])
  {
    assert Snapshot(Start(), Hub({}, []), map[], {}, {}, [], [], []);
    ConnectStage(Start(), Alice, "alice", decode, NewPool(), map[], {}, {}, [], [], [], {Alice}, {Alice});
    var w := Step(Start(), Connect(Alice, "alice"), decode);
    assert Execute(Start(), [Connect(Alice, "alice")], decode) == Execute(w, [], decode);
  }

  /** The actions of the chat session below. */
  function ChatActions(t: int, payload: Bytes): seq<Action>
  {
    [Connect(Alice, "alice"), Connect(Bob, "bob"),
     Receive(Alice, Frame(t, payload)), Accept(Alice),
     Connect(Carol, "carol"),
     Receive(Bob, ReadFailure), Accept(Bob)]
  }

  lemma ChatStep1(decode: Decoder) returns (r: World)
    ensures r == Step(Start(), Connect(Alice, "alice"), decode)
    ensures Snapshot(r, Hub({Alice}, []), map[], {}, {Alice}, [JoinNotice("alice")], [], [])
  {
    assert Snapshot(Start(), Hub({}, []), map[], {}, {}, [], [], []);
    ConnectStage(Start(), Alice, "alice", decode, NewPool(), map[], {}, {}, [], [], [], {Alice}, {Alice});
    r := Step(Start(), Connect(Alice, "alice"), decode);
  }

  lemma ChatStep2(w: World, decode: Decoder) returns (r: World)
    requires Snapshot(w, Hub({Alice}, []), map[], {}, {Alice}, [JoinNotice("alice")], [], [])
    ensures r == Step(w, Connect(Bob, "bob"), decode)
    ensures Snapshot(r, Hub({Alice, Bob}, []), map[], {}, {Alice, Bob},
                     [JoinNotice("alice"), JoinNotice("bob")], [JoinNotice("bob")], [])
  {
    ConnectStage(w, Bob, "bob", decode, Hub({Alice}, []), map[], {}, {Alice}, [JoinNotice("alice")], [], [], {Alice, Bob}, {Alice, Bob});
    r := Step(w, Connect(Bob, "bob"), decode);
  }

  lemma ChatStep3(w: World, t: int, payload: Bytes, decode: Decoder) returns (r: World)
    requires decode(payload) == Some(Greeting)
    requires Snapshot(w, Hub({Alice, Bob}, []), map[], {}, {Alice, Bob},
                      [JoinNotice("alice"), JoinNotice("bob")], [JoinNotice("bob")], [])
    ensures r == Step(w, Receive(Alice, Frame(t, payload)), decode)
    ensures Snapshot(r, Hub({Alice, Bob}, [Hi(t)]), map[Alice := Broadcast(Hi(t))], {}, {Alice, Bob},
                     [JoinNotice("alice"), JoinNotice("bob")], [JoinNotice("bob")], [])
  {
    GreetingStage(w, t, payload, decode, Hub({Alice, Bob}, []), map[], {}, {Alice, Bob},
                  [JoinNotice("alice"), JoinNotice("bob")], [JoinNotice("bob")], []);
    r := Step(w, Receive(Alice, Frame(t, payload)), decode);
  }

  lemma ChatStep4(w: World, t: int, decode: Decoder) returns (r: World)
    requires Snapshot(w, Hub({Alice, Bob}, [Hi(t)]), map[Alice := Broadcast(Hi(t))], {}, {Alice, Bob},
                      [JoinNotice("alice"), JoinNotice("bob")], [JoinNotice("bob")], [])
    ensures r == Step(w, Accept(Alice), decode)
    ensures Snapshot(r, Hub({Alice, Bob}, [Hi(t)]), map[], {}, {Alice, Bob},
                     [JoinNotice("alice"), JoinNotice("bob"), Hi(t)], [JoinNotice("bob"), Hi(t)], [])
  {
    BroadcastStage(w, Alice, Hi(t), decode, Hub({Alice, Bob}, [Hi(t)]), map[Alice := Broadcast(Hi(t))], {}, {Alice, Bob},
                   [JoinNotice("alice"), JoinNotice("bob")], [JoinNotice("bob")], []);
    assert map[Alice := Broadcast(Hi(t))] - {Alice} == map[];
    r := Step(w, Accept(Alice), decode);
  }

  lemma ChatStep5(w: World, t: int, decode: Decoder) returns (r: World)
    requires Snapshot(w, Hub({Alice, Bob}, [Hi(t)]), map[], {}, {Alice, Bob},
                      [JoinNotice("alice"), JoinNotice("bob"), Hi(t)], [JoinNotice("bob"), Hi(t)], [])
    ensures r == Step(w, Connect(Carol, "carol"), decode)
    ensures Snapshot(r, Hub({Alice, Bob, Carol}, [Hi(t)]), map[], {}, {Alice, Bob, Carol},
                     [JoinNotice("alice"), JoinNotice("bob"), Hi(t), JoinNotice("carol")],
                     [JoinNotice("bob"), Hi(t), JoinNotice("carol")],
                     [JoinNotice("carol"), Hi(t)])
  {
    ConnectStage(w, Carol, "carol", decode, Hub({Alice, Bob}, [Hi(t)]), map[], {}, {Alice, Bob},
                 [JoinNotice("alice"), JoinNotice("bob"), Hi(t)], [JoinNotice("bob"), Hi(t)], [],
                 {Alice, Bob, Carol}, {Alice, Bob, Carol});
    r := Step(w, Connect(Carol, "carol"), decode);
  }

  lemma ChatStep6(w: World, t: int, decode: Decoder) returns (r: World)
    requires Snapshot(w, Hub({Alice, Bob, Carol}, [Hi(t)]), map[], {}, {Alice, Bob, Carol},
                      [JoinNotice("alice"), JoinNotice("bob"), Hi(t), JoinNotice("carol")],
                      [JoinNotice("bob"), Hi(t), JoinNotice("carol")],
                      [JoinNotice("carol"), Hi(t)])
    ensures r == Step(w, Receive(Bob, ReadFailure), decode)
    ensures Snapshot(r, Hub({Alice, Bob, Carol}, [Hi(t)]), map[Bob := Unregister(Bob)], {Bob}, {Alice, Bob, Carol},
                     [JoinNotice("alice"), JoinNotice("bob"), Hi(t), JoinNotice("carol")],
                     [JoinNotice("bob"), Hi(t), JoinNotice("carol")],
                     [JoinNotice("carol"), Hi(t)])
  {
    FailureStage(w, Bob, decode, Hub({Alice, Bob, Carol}, [Hi(t)]), map[], {}, {Alice, Bob, Carol},
                 [JoinNotice("alice"), JoinNotice("bob"), Hi(t), JoinNotice("carol")],
                 [JoinNotice("bob"), Hi(t), JoinNotice("carol")],
                 [JoinNotice("carol"), Hi(t)]);
    r := Step(w, Receive(Bob, ReadFailure), decode);
  }

  lemma ChatStep7(w: World, t: int, decode: Decoder) returns (r: World)
    requires Snapshot(w, Hub({Alice, Bob, Carol}, [Hi(t)]), map[Bob := Unregister(Bob)], {Bob}, {Alice, Bob, Carol},
                      [JoinNotice("alice"), JoinNotice("bob"), Hi(t), JoinNotice("carol")],
                      [JoinNotice("bob"), Hi(t), JoinNotice("carol")],
                      [JoinNotice("carol"), Hi(t)])
    ensures r == Step(w, Accept(Bob), decode)
    ensures Snapshot(r, Hub({Alice, Carol}, [Hi(t)]), map[], {Bob}, {Alice, Bob, Carol},
                     [JoinNotice("alice"), JoinNotice("bob"), Hi(t), JoinNotice("carol"), LeaveNotice],
                     [JoinNotice("bob"), Hi(t), JoinNotice("carol")],
                     [JoinNotice("carol"), Hi(t), LeaveNotice])
  {
    LeaveStage(w, Bob, decode, Hub({Alice, Bob, Carol}, [Hi(t)]), map[Bob := Unregister(Bob)], {Bob}, {Alice, Bob, Carol},
               [JoinNotice("alice"), JoinNotice("bob"), Hi(t), JoinNotice("carol")],
               [JoinNotice("bob"), Hi(t), JoinNotice("carol")],
               [JoinNotice("carol"), Hi(t)]);
    assert map[Bob := Unregister(Bob)] - {Bob} == map[];
    assert {Alice, Bob, Carol} - {Bob} == {Alice, Carol};
    r := Step(w, Accept(Bob), decode);
  }

  /** alice and bob join, alice sends "hi", carol joins, then bob's
      connection fails. Join and leave notices reach exactly the clients live
      at the time, "hi" reaches everyone live when it is broadcast, carol is
      sent it by replay, and the history holds "hi" alone. */
  lemma ChatSession(decode: Decoder, t: int, payload: Bytes)
    requires decode(payload) == Some(Greeting)
    ensures Snapshot(Execute(Start(), ChatActions(t, payload), decode),
                     Hub({Alice, Carol}, [Hi(t)]), map[], {Bob}, {Alice, Bob, Carol},
                     [JoinNotice("alice"), JoinNotice("bob"), Hi(t), JoinNotice("carol"), LeaveNotice],
                     [JoinNotice("bob"), Hi(t), JoinNotice("carol")],
                     [JoinNotice("carol"), Hi(t), LeaveNotice])
  {
    var w1 := ChatStep1(decode);
    var w2 := ChatStep2(w1, decode);
    var w3 := ChatStep3(w2, t, payload, decode);
    var w4 := ChatStep4(w3, t, decode);
    var w5 := ChatStep5(w4, t, decode);
    var w6 := ChatStep6(w5, t, decode);
    var w7 := ChatStep7(w6, t, decode);
    ChatExecute(decode, t, payload);
  }

  /** The chat actions, one at a time. */
  lemma ChatExecute(decode: Decoder, t: int, payload: Bytes)
    ensures Execute(Start(), ChatActions(t, payload), decode)
            == Step(Step(Step(Step(Step(Step(Step(Start(), Connect(Alice, "alice"), decode),
                    Connect(Bob, "bob"), decode), Receive(Alice, Frame(t, payload)), decode),
                    Accept(Alice), decode), Connect(Carol, "carol"), decode),
                    Receive(Bob, ReadFailure), decode), Accept(Bob), decode)
  {
    ExecuteSteps7(Start(), ChatActions(t, payload), decode);
  }

  /** Seven actions, one at a time. */
  lemma ExecuteSteps7(w: World, actions: seq<Action>, decode: Decoder)
    requires |actions| == 7
    ensures Execute(w, actions, decode)
            == Step(Step(Step(Step(Step(Step(Step(w, actions[0], decode), actions[1], decode),
                    actions[2], decode), actions[3], decode), actions[4], decode), actions[5], decode),
                    actions[6], decode)
  {
    var w1 := Step(w, actions[0], decode);
    var w2 := Step(w1, actions[1], decode);
    var w3 := Step(w2, actions[2], decode);
    var w4 := Step(w3, actions[3], decode);
    var w5 := Step(w4, actions[4], decode);
    var w6 := Step(w5, actions[5], decode);
    var w7 := Step(w6, actions[6], decode);
    assert Execute(w6, actions[6..], decode) == Execute(w7, [], decode);
    assert actions[5..][1..] == actions[6..];
    assert Execute(w5, actions[5..], decode) == w7;
    assert actions[4..][1..] == actions[5..];
    assert Execute(w4, actions[4..], decode) == w7;
    assert actions[3..][1..] == actions[4..];
    assert Execute(w3, actions[3..], decode) == w7;
    assert actions[2..][1..] == actions[3..];
    assert Execute(w2, actions[2..], decode) == w7;
    assert actions[1..][1..] == actions[2..];
    assert Execute(w1, actions[1..], decode) == w7;
  }

  lemma RaceStep2(w: World, t: int, payload: Bytes, decode: Decoder) returns (r: World)
    requires decode(payload) == Some(Greeting)
    requires Snapshot(w, Hub({Alice}, []), map[], {}, {Alice}, [JoinNotice("alice")], [], [])
    ensures r == Step(w, Receive(Alice, Frame(t, payload)), decode)
    ensures Snapshot(r, Hub({Alice}, [Hi(t)]), map[Alice := Broadcast(Hi(t))], {}, {Alice},
                     [JoinNotice("alice")], [], [])
  {
    GreetingStage(w, t, payload, decode, Hub({Alice}, []), map[], {}, {Alice}, [JoinNotice("alice")], [], []);
    r := Step(w, Receive(Alice, Frame(t, payload)), decode);
  }

  lemma RaceStep3(w: World, t: int, decode: Decoder) returns (r: World)
    requires Snapshot(w, Hub({Alice}, [Hi(t)]), map[Alice := Broadcast(Hi(t))], {}, {Alice},
                      [JoinNotice("alice")], [], [])
    ensures r == Step(w, Connect(Bob, "bob"), decode)
    ensures Snapshot(r, Hub({Alice, Bob}, [Hi(t)]), map[Alice := Broadcast(Hi(t))], {}, {Alice, Bob},
                     [JoinNotice("alice"), JoinNotice("bob")], [JoinNotice("bob"), Hi(t)], [])
  {
    ConnectStage(w, Bob, "bob", decode, Hub({Alice}, [Hi(t)]), map[Alice := Broadcast(Hi(t))], {}, {Alice},
                 [JoinNotice("alice")], [], [], {Alice, Bob}, {Alice, Bob});
    r := Step(w, Connect(Bob, "bob"), decode);
  }

  lemma RaceStep4(w: World, t: int, decode: Decoder) returns (r: World)
    requires Snapshot(w, Hub({Alice, Bob}, [Hi(t)]), map[Alice := Broadcast(Hi(t))], {}, {Alice, Bob},
                      [JoinNotice("alice"), JoinNotice("bob")], [JoinNotice("bob"), Hi(t)], [])
    ensures r == Step(w, Accept(Alice), decode)
    ensures Snapshot(r, Hub({Alice, Bob}, [Hi(t)]), map[], {}, {Alice, Bob},
                     [JoinNotice("alice"), JoinNotice("bob"), Hi(t)], [JoinNotice("bob"), Hi(t), Hi(t)], [])
  {
    BroadcastStage(w, Alice, Hi(t), decode, Hub({Alice, Bob}, [Hi(t)]), map[Alice := Broadcast(Hi(t))], {}, {Alice, Bob},
                   [JoinNotice("alice"), JoinNotice("bob")], [JoinNotice("bob"), Hi(t)], []);
    assert map[Alice := Broadcast(Hi(t))] - {Alice} == map[];
    r := Step(w, Accept(Alice), decode);
  }

  /** The actions of the race below. */
  function RaceActions(t: int, payload: Bytes): seq<Action>
  {
    [Connect(Alice, "alice"), Receive(Alice, Frame(t, payload)), Connect(Bob, "bob"), Accept(Alice)]
  }

  /** bob registers after alice's session has appended "hi" but before the
      dispatcher has taken her broadcast: bob's replay already carries "hi",
      and the broadcast then reaches bob as well, so bob is sent it twice. */
  lemma JoinDuringBroadcastDuplicates(decode: Decoder, t: int, payload: Bytes)
    requires decode(payload) == Some(Greeting)
    ensures Snapshot(Execute(Start(), RaceActions(t, payload), decode),
                     Hub({Alice, Bob}, [Hi(t)]), map[], {}, {Alice, Bob},
                     [JoinNotice("alice"), JoinNotice("bob"), Hi(t)],
                     [JoinNotice("bob"), Hi(t), Hi(t)], [])
  {
    var w1 := ChatStep1(decode);
    var w2 := RaceStep2(w1, t, payload, decode);
    var w3 := RaceStep3(w2, t, decode);
    var w4 := RaceStep4(w3, t, decode);
    RaceExecute(decode, t, payload);
  }

  /** The race actions, one at a time. */
  lemma RaceExecute(decode: Decoder, t: int, payload: Bytes)
    ensures Execute(Start(), RaceActions(t, payload), decode)
            == Step(Step(Step(Step(Start(), Connect(Alice, "alice"), decode),
                    Receive(Alice, Frame(t, payload)), decode), Connect(Bob, "bob"), decode),
                    Accept(Alice), decode)
  {
    ExecuteSteps4(Start(), RaceActions(t, payload), decode);
  }

  /** Four actions, one at a time. */
  lemma ExecuteSteps4(w: World, actions: seq<Action>, decode: Decoder)
    requires |actions| == 4
    ensures Execute(w, actions, decode)
            == Step(Step(Step(Step(w, actions[0], decode), actions[1], decode), actions[2], decode),
                    actions[3], decode)
  {
    var w1 := Step(w, actions[0], decode);
    var w2 := Step(w1, actions[1], decode);
    var w3 := Step(w2, actions[2], decode);
    var w4 := Step(w3, actions[3], decode);
    assert Execute(w3, actions[3..], decode) == Execute(w4, [], decode);
    assert actions[2..][1..] == actions[3..];
    assert Execute(w2, actions[2..], decode) == w4;
    assert actions[1..][1..] == actions[2..];
    assert Execute(w1, actions[1..], decode) == w4;
  }
}

=== FILE: session.dfy ===
/** The read loop of `Client.Read` (main.go:172-199): read a frame, decode it,
    stamp the frame type on it, append it to the history and submit it for
    broadcast; on a read or decode error leave the loop, and on every exit
    submit exactly one `Unregister` for the session (the deferred teardown). */
module Session {
  import opened Wrappers
  import opened Messages
  import opened Pool

  type Bytes = seq<bv8>

  /** The result of one `Conn.ReadMessage` call: a frame with its transport
      type (`websocket.TextMessage`, `BinaryMessage`, ...) and payload, or an
      error (which includes the peer closing the connection). */
  datatype Inbound = Frame(frameType: int, data: Bytes) | ReadFailure

  /** `json.Unmarshal` into a `Message`, left abstract: any partial function
      from payload bytes to a message. */
  type Decoder = Bytes -> Option<Message>

  /** One pass through the loop body up to the append (main.go:179-192): the
      message to append and broadcast, or `None` when the loop must exit. */
  function ReadFrame(input: Inbound, decode: Decoder): (r: Option<Message>)
    ensures r.Some? <==> input.Frame? && decode(input.data).Some?
    ensures r.Some? ==> r.value.kind == input.frameType
    ensures r.Some? ==> r.value.body == decode(input.data).value.body
    ensures r.Some? ==> r.value.name == decode(input.data).value.name
  {
    match input
    case ReadFailure => None
    case Frame(t, data) =>
      match decode(data)
      case None => None
      case Some(m) => Some(Stamp(m, t))
  }

  /** The messages carried by the `Broadcast` submissions of `evs`, in order. */
  function Forwarded(evs: seq<PoolEvent>): seq<Message>
    decreases |evs|
  {
    if |evs| == 0 then []
    else (if evs[0].Broadcast? then [evs[0].msg] else []) + Forwarded(evs[1..])
  }

  /** A session's loop over the frames it reads: the history it leaves, the
      events it submits to the pool, and whether the loop has exited. */
  datatype SessionRun = SessionRun(history: seq<Message>, submitted: seq<PoolEvent>, closed: bool)

  /** `Client.Read` over the successive results of `ReadMessage`. When the
      inputs run out without an error the session is still reading. */
  function ReadLoop(history: seq<Message>, id: ClientId, inputs: seq<Inbound>, decode: Decoder): (r: SessionRun)
    ensures r.history == history + Forwarded(r.submitted)
    ensures |r.submitted| <= |inputs|
    ensures r.closed <==> exists i :: 0 <= i < |inputs| && ReadFrame(inputs[i], decode).None?
    ensures r.closed ==> |r.submitted| > 0 && r.submitted[|r.submitted| - 1] == Unregister(id)
    ensures forall i :: 0 <= i < |r.submitted| ==>
              (r.submitted[i].Unregister? <==> r.closed && i == |r.submitted| - 1)
    ensures forall i :: 0 <= i < |r.submitted| ==> r.submitted[i].Broadcast? || r.submitted[i] == Unregister(id)
    ensures forall i :: 0 <= i < |r.submitted| && r.submitted[i].Broadcast? ==>
              ReadFrame(inputs[i], decode) == Some(r.submitted[i].msg)
    ensures r.closed ==> ReadFrame(inputs[|r.submitted| - 1], decode).None?
    ensures !r.closed ==> |r.submitted| == |inputs|
    decreases |inputs|
  {
    if |inputs| == 0 then SessionRun(history, [], false)
    else
      match ReadFrame(inputs[0], decode)
      case None => SessionRun(history, [Unregister(id)], true)
      case Some(m) =>
        var rest := ReadLoop(history + [m], id, inputs[1..], decode);
        SessionRun(rest.history, [Broadcast(m)] + rest.submitted, rest.closed)
  }

  /** Once the loop has exited, later frames are never read: extending the
      inputs after a failing one changes nothing. */
  lemma {:induction false} ExitIsFinal(history: seq<Message>, id: ClientId, inputs: seq<Inbound>,
                                      more: seq<Inbound>, decode: Decoder)
    requires exists i :: 0 <= i < |inputs| && ReadFrame(inputs[i], decode).None?
    ensures ReadLoop(history, id, inputs + more, decode) == ReadLoop(history, id, inputs, decode)
    decreases |inputs|
  {
    var all := inputs + more;
    assert all[0] == inputs[0];
    if ReadFrame(inputs[0], decode).Some? {
      var i :| 0 <= i < |inputs| && ReadFrame(inputs[i], decode).None?;
      assert i > 0;
      assert inputs[1..][i - 1] == inputs[i];
      assert all[1..] == inputs[1..] + more;
      ExitIsFinal(history + [ReadFrame(inputs[0], decode).value], id, inputs[1..], more, decode);
    }
  }
}

=== FILE: system.dfy ===
/** The whole hub: the dispatcher goroutine and every session's read loop,
    interleaved one atomic action at a time. A session hands its events to
    the dispatcher over unbuffered channels, so after submitting one it is
    blocked until the dispatcher takes it; `pending` holds those hand-offs.
    A session appends to the shared history before it submits the broadcast
    (main.go:193-194), so other actions may run between the two. Every
    connection gets a fresh `*Client` (main.go:118-124), so an identity is
    connected at most once and only a connected session reads. */
module System {
  import opened Wrappers
  import opened Messages
  import opened Pool
  import opened Session

  /** The hub plus what each client has been sent so far. */
  datatype World = World(
    hub: Hub,
    inboxes: Outbox,                   // everything written to each client
    pending: map<ClientId, PoolEvent>, // a session blocked on a channel send
    connected: set<ClientId>,          // sessions that have been started
    ended: set<ClientId>)              // sessions whose read loop has exited

  /** One atomic action. `Connect` is `wsHandler` handing a new session to the
      `Register` channel (main.go:118-124); `Receive` is one `ReadMessage` of
      session `id`; `Accept` is the dispatcher taking session `id`'s pending
      event off its channel. */
  datatype Action =
    | Connect(id: ClientId, name: string)
    | Receive(id: ClientId, input: Inbound)
    | Accept(id: ClientId)

  /** Nothing has happened yet. */
  function Start(): World
  {
    World(NewPool(), map[], map[], {}, {})
  }

  /** Every client's inbox extended by what one dispatcher step wrote. */
  function Merge(a: Outbox, b: Outbox): (r: Outbox)
    ensures forall c :: Received(r, c) == Received(a, c) + Received(b, c)
  {
    map c | c in a.Keys + b.Keys :: Received(a, c) + Received(b, c)
  }

  /** The world after one action. An identity that is already connected
      cannot connect again, and only a connected session reads. A session
      that is blocked on a send, or whose loop has exited, reads nothing. A
      session that fails to read or decode leaves its loop and hands
      `Unregister` to the dispatcher. */
  function Step(w: World, a: Action, decode: Decoder): (r: World)
    ensures r.connected == w.connected + (if a.Connect? then {a.id} else {})
    ensures w.ended <= r.ended
    ensures a.Connect? && a.id in w.connected ==> r == w
    ensures r.ended != w.ended ==>
              (&& a.Receive? && a.id in w.connected && a.id !in w.ended
               && r.ended == w.ended + {a.id} && ReadFrame(a.input, decode).None?
               && r.pending == w.pending[a.id := Unregister(a.id)])
    ensures a.Receive? && (a.id !in w.connected || a.id in w.ended) ==> r == w
    ensures a.Receive? || r.hub.history == w.hub.history
    ensures w.hub.history <= r.hub.history
    ensures |r.hub.history| <= |w.hub.history| + 1
    ensures |r.hub.history| == |w.hub.history| + 1 ==>
              a.Receive? && a.id in w.connected && a.id !in w.pending && a.id !in w.ended
              && ReadFrame(a.input, decode) == Some(r.hub.history[|w.hub.history|])
              && r.pending == w.pending[a.id := Broadcast(r.hub.history[|w.hub.history|])]
    ensures a.Receive? ==> r.hub.clients == w.hub.clients && r.inboxes == w.inboxes
  {
    match a
    case Connect(id, name) =>
      if id in w.connected then w
      else
        var eff := Dispatch(w.hub, Register(id, name));
        w.(hub := eff.hub, inboxes := Merge(w.inboxes, eff.outbox), connected := w.connected + {id})
    case Receive(id, input) =>
      if id !in w.connected || id in w.pending || id in w.ended then w
      else
        (match ReadFrame(input, decode)
         case Some(m) =>
           w.(hub := w.hub.(history := w.hub.history + [m]), pending := w.pending[id := Broadcast(m)])
         case None =>
           w.(pending := w.pending[id := Unregister(id)], ended := w.ended + {id}))
    case Accept(id) =>
      if id !in w.pending then w
      else
        var eff := Dispatch(w.hub, w.pending[id]);
        w.(hub := eff.hub, inboxes := Merge(w.inboxes, eff.outbox), pending := w.pending - {id})
  }

  /** The world after a sequence of actions. The history only ever grows, by
      at most one message per action, and an ended session stays ended. */
  function Execute(w: World, actions: seq<Action>, decode: Decoder): (r: World)
    ensures w.hub.history <= r.hub.history
    ensures w.ended <= r.ended
    ensures |r.hub.history| <= |w.hub.history| + |actions|
    decreases |actions|
  {
    if |actions| == 0 then w
    else Execute(Step(w, actions[0], decode), actions[1..], decode)
  }

  /** A connecting client goes through the `Register` arm at once. */
  lemma ConnectEffect(w: World, id: ClientId, name: string, decode: Decoder)
    requires id !in w.connected
    ensures Step(w, Connect(id, name), decode).hub == Hub(w.hub.clients + {id}, w.hub.history)
    ensures Step(w, Connect(id, name), decode).pending == w.pending
    ensures Step(w, Connect(id, name), decode).ended == w.ended
    ensures Step(w, Connect(id, name), decode).connected == w.connected + {id}
  {
  }

  /** What a connection adds to client `c`'s inbox: the join notice when `c`
      is live afterwards, then the history replay when `c` is the joiner. */
  lemma ConnectReceived(w: World, id: ClientId, name: string, decode: Decoder, c: ClientId)
    requires id !in w.connected
    ensures Received(Step(w, Connect(id, name), decode).inboxes, c)
            == Received(w.inboxes, c)
               + ((if c in w.hub.clients + {id} then [JoinNotice(name)] else [])
                  + (if c == id then w.hub.history else []))
  {
    ConnectWrites(w, id, name, decode);
  }

  /** A connection merges the `Register` arm's outbox into the inboxes. */
  lemma ConnectWrites(w: World, id: ClientId, name: string, decode: Decoder)
    requires id !in w.connected
    ensures Step(w, Connect(id, name), decode).inboxes == Merge(w.inboxes, RegisterClient(w.hub, id, name).outbox)
  {
  }

  /** A session that is free to read and decodes a frame appends the stamped
      message and is then blocked handing it to the dispatcher. */
  lemma ReceiveEffect(w: World, id: ClientId, input: Inbound, decode: Decoder, m: Message)
    requires id in w.connected && id !in w.pending && id !in w.ended
    requires ReadFrame(input, decode) == Some(m)
    ensures Step(w, Receive(id, input), decode)
            == w.(hub := Hub(w.hub.clients, w.hub.history + [m]), pending := w.pending[id := Broadcast(m)])
  {
  }

  /** A session that is free to read and fails leaves its loop and is then
      blocked handing `Unregister` to the dispatcher. */
  lemma ReceiveFailure(w: World, id: ClientId, input: Inbound, decode: Decoder)
    requires id in w.connected && id !in w.pending && id !in w.ended
    requires ReadFrame(input, decode) == None
    ensures Step(w, Receive(id, input), decode)
            == w.(pending := w.pending[id := Unregister(id)], ended := w.ended + {id})
  {
  }

  /** The dispatcher taking a pending event runs that event's arm. */
  lemma AcceptEffect(w: World, id: ClientId, decode: Decoder)
    requires id in w.pending
    ensures Step(w, Accept(id), decode).hub == Dispatch(w.hub, w.pending[id]).hub
    ensures Step(w, Accept(id), decode).pending == w.pending - {id}
    ensures Step(w, Accept(id), decode).ended == w.ended
  {
  }

  /** Taking a pending broadcast writes it once to every live client. */
  lemma AcceptBroadcastReceived(w: World, id: ClientId, m: Message, decode: Decoder, c: ClientId)
    requires id in w.pending && w.pending[id] == Broadcast(m)
    ensures Received(Step(w, Accept(id), decode).inboxes, c)
            == Received(w.inboxes, c) + (if c in w.hub.clients then [m] else [])
  {
    assert Dispatch(w.hub, w.pending[id]) == BroadcastMessage(w.hub, m);
  }

  /** Taking a pending unregistration writes the leave notice once to every
      client that stays live. */
  lemma AcceptUnregisterReceived(w: World, id: ClientId, decode: Decoder, c: ClientId)
    requires id in w.pending && w.pending[id] == Unregister(id)
    ensures Received(Step(w, Accept(id), decode).inboxes, c)
            == Received(w.inboxes, c) + (if c in w.hub.clients && c != id then [LeaveNotice] else [])
  {
    assert Dispatch(w.hub, w.pending[id]) == UnregisterClient(w.hub, id);
  }

  /** Append-before-broadcast: every broadcast still waiting for the
      dispatcher is already in the history. */
  ghost predicate AppendedBeforeFanOut(w: World)
  {
    forall id :: id in w.pending && w.pending[id].Broadcast? ==> w.pending[id].msg in w.hub.history
  }

  lemma StepAppendsBeforeFanOut(w: World, a: Action, decode: Decoder)
    requires AppendedBeforeFanOut(w)
    ensures AppendedBeforeFanOut(Step(w, a, decode))
  {
    var r := Step(w, a, decode);
    forall id | id in r.pending && r.pending[id].Broadcast?
      ensures r.pending[id].msg in r.hub.history
    {
      if id in w.pending && r.pending[id] == w.pending[id] {
        assert w.pending[id].msg in w.hub.history;
        assert w.hub.history <= r.hub.history;
      }
    }
  }

  /** The invariant holds along every run, so a client that registers while a
      broadcast is waiting finds that message in its history replay. */
  lemma {:induction false} ExecuteAppendsBeforeFanOut(w: World, actions: seq<Action>, decode: Decoder)
    requires AppendedBeforeFanOut(w)
    ensures AppendedBeforeFanOut(Execute(w, actions, decode))
    decreases |actions|
  {
    if |actions| > 0 {
      StepAppendsBeforeFanOut(w, actions[0], decode);
      ExecuteAppendsBeforeFanOut(Step(w, actions[0], decode), actions[1..], decode);
    }
  }

  /** How the sessions and the live set hang together. Every connection is
      live or has ended its loop. A session blocked on a send is connected;
      it is handing over its own `Unregister` when its loop has ended and a
      broadcast otherwise. A session that has ended and has nothing left to
      hand over is no longer live. */
  ghost predicate Consistent(w: World)
  {
    && w.connected == w.hub.clients + w.ended
    && (forall id :: id in w.pending ==>
          id in w.connected
          && (if id in w.ended then w.pending[id] == Unregister(id) else w.pending[id].Broadcast?))
    && (forall id :: id in w.ended && id !in w.pending ==> id !in w.hub.clients)
  }

  lemma StepKeepsConsistent(w: World, a: Action, decode: Decoder)
    requires Consistent(w)
    ensures Consistent(Step(w, a, decode))
  {
    match a
    case Connect(id, name) => ConnectKeepsConsistent(w, id, name, decode);
    case Receive(id, input) => ReceiveKeepsConsistent(w, id, input, decode);
    case Accept(id) => AcceptKeepsConsistent(w, id, decode);
  }

  lemma ConnectKeepsConsistent(w: World, id: ClientId, name: string, decode: Decoder)
    requires Consistent(w)
    ensures Consistent(Step(w, Connect(id, name), decode))
  {
    if id !in w.connected {
      ConnectEffect(w, id, name, decode);
      JoinKeepsConsistent(w, Step(w, Connect(id, name), decode), id);
    }
  }

  /** Adding a fresh identity to both the live and the connected set. */
  lemma JoinKeepsConsistent(w: World, r: World, id: ClientId)
    requires Consistent(w) && id !in w.connected
    requires r.hub.clients == w.hub.clients + {id} && r.connected == w.connected + {id}
    requires r.pending == w.pending && r.ended == w.ended
    ensures Consistent(r)
  {
    forall i | i in r.ended && i !in r.pending
      ensures i !in r.hub.clients
    {
      assert i in w.connected;
    }
  }

  lemma ReceiveKeepsConsistent(w: World, id: ClientId, input: Inbound, decode: Decoder)
    requires Consistent(w)
    ensures Consistent(Step(w, Receive(id, input), decode))
  {
    if id in w.connected && id !in w.pending && id !in w.ended {
      match ReadFrame(input, decode)
      case Some(m) => ReceiveEffect(w, id, input, decode, m);
      case None => ReceiveFailure(w, id, input, decode);
    }
  }

  lemma AcceptKeepsConsistent(w: World, id: ClientId, decode: Decoder)
    requires Consistent(w)
    ensures Consistent(Step(w, Accept(id), decode))
  {
    if id in w.pending {
      var r := Step(w, Accept(id), decode);
      AcceptEffect(w, id, decode);
      if id in w.ended {
        assert Dispatch(w.hub, w.pending[id]) == UnregisterClient(w.hub, id);
        assert r.hub.clients == w.hub.clients - {id};
      } else {
        assert Dispatch(w.hub, w.pending[id]) == BroadcastMessage(w.hub, w.pending[id].msg);
        assert r.hub.clients == w.hub.clients;
      }
    }
  }

  /** Every run from the start keeps the sessions and the live set in step:
      the deferred `Unregister` (main.go:173-176) is the only way a client
      leaves the live set, and no session reads before it has connected or
      after its loop has returned. */
  lemma {:induction false} ExecuteKeepsConsistent(w: World, actions: seq<Action>, decode: Decoder)
    requires Consistent(w)
    ensures Consistent(Execute(w, actions, decode))
    decreases |actions|
  {
    if |actions| > 0 {
      StepKeepsConsistent(w, actions[0], decode);
      ExecuteKeepsConsistent(Step(w, actions[0], decode), actions[1..], decode);
    }
  }

  /** The same, for every world reachable from `Start`. */
  lemma ReachableConsistent(actions: seq<Action>, decode: Decoder)
    ensures Consistent(Execute(Start(), actions, decode))
  {
    ExecuteKeepsConsistent(Start(), actions, decode);
  }

  /** `actions` without the reads of session `id`. */
  function DropReads(actions: seq<Action>, id: ClientId): (r: seq<Action>)
    ensures |r| <= |actions|
    ensures forall i :: 0 <= i < |r| ==> !(r[i].Receive? && r[i].id == id)
    decreases |actions|
  {
    if |actions| == 0 then []
    else if actions[0].Receive? && actions[0].id == id then DropReads(actions[1..], id)
    else [actions[0]] + DropReads(actions[1..], id)
  }

  /** Once a session's loop has returned (main.go:180-191), whatever its
      connection would still deliver is never read: a run with or without
      those reads ends in the same world. */
  lemma {:induction false} EndedSessionIsSilent(w: World, actions: seq<Action>, decode: Decoder, id: ClientId)
    requires id in w.ended
    ensures Execute(w, actions, decode) == Execute(w, DropReads(actions, id), decode)
    decreases |actions|
  {
    if |actions| > 0 {
      var a := actions[0];
      var w1 := Step(w, a, decode);
      EndedSessionIsSilent(w1, actions[1..], decode, id);
      if a.Receive? && a.id == id {
        assert w1 == w;
      } else {
        var rest := DropReads(actions[1..], id);
        assert DropReads(actions, id) == [a] + rest;
        assert ([a] + rest)[0] == a && ([a] + rest)[1..] == rest;
      }
    }
  }

  /** Session `id` running on its own: each read is followed at once by the
      dispatcher taking whatever the session handed over. */
  function Solo(id: ClientId, inputs: seq<Inbound>): (r: seq<Action>)
    ensures |r| == 2 * |inputs|
    ensures forall k :: 0 <= k < |r| ==> r[k].id == id
    decreases |inputs|
  {
    if |inputs| == 0 then []
    else [Receive(id, inputs[0]), Accept(id)] + Solo(id, inputs[1..])
  }

  lemma ExecuteTwo(w: World, a: Action, b: Action, rest: seq<Action>, decode: Decoder)
    ensures Execute(w, [a, b] + rest, decode) == Execute(Step(Step(w, a, decode), b, decode), rest, decode)
  {
    assert ([a, b] + rest)[0] == a && ([a, b] + rest)[1..] == [b] + rest;
    assert ([b] + rest)[0] == b && ([b] + rest)[1..] == rest;
  }

  /** After its loop has returned and its `Unregister` has been taken, the
      session's own reads and hand-offs change nothing. */
  lemma {:induction false} SoloAfterEnd(w: World, id: ClientId, inputs: seq<Inbound>, decode: Decoder)
    requires id in w.ended && id !in w.pending
    ensures Execute(w, Solo(id, inputs), decode) == w
    decreases |inputs|
  {
    if |inputs| > 0 {
      ExecuteTwo(w, Receive(id, inputs[0]), Accept(id), Solo(id, inputs[1..]), decode);
      assert Step(Step(w, Receive(id, inputs[0]), decode), Accept(id), decode) == w;
      SoloAfterEnd(w, id, inputs[1..], decode);
    }
  }

  /** One read of a free session and the dispatcher taking its hand-off. */
  lemma SoloStep(w: World, id: ClientId, input: Inbound, decode: Decoder)
    requires id in w.connected && id !in w.pending && id !in w.ended
    ensures var w2 := Step(Step(w, Receive(id, input), decode), Accept(id), decode);
            && w2.pending == w.pending
            && w2.connected == w.connected
            && (match ReadFrame(input, decode)
                case Some(m) => w2.hub == Hub(w.hub.clients, w.hub.history + [m]) && w2.ended == w.ended
                case None => w2.hub == Hub(w.hub.clients - {id}, w.hub.history) && w2.ended == w.ended + {id})
  {
    var w1 := Step(w, Receive(id, input), decode);
    match ReadFrame(input, decode)
    case Some(m) =>
      ReceiveEffect(w, id, input, decode, m);
      assert Dispatch(w1.hub, w1.pending[id]) == BroadcastMessage(w1.hub, m);
      assert w1.pending - {id} == w.pending;
    case None =>
      ReceiveFailure(w, id, input, decode);
      assert Dispatch(w1.hub, w1.pending[id]) == UnregisterClient(w1.hub, id);
      assert w1.pending - {id} == w.pending;
  }

  /** The session-local read loop and the interleaved world agree: a session
      running on its own leaves the history `ReadLoop` computes, its loop has
      returned exactly when `ReadLoop` says so, and then its deferred
      `Unregister` has taken it out of the live set (main.go:172-199). */
  lemma {:induction false} SoloMatchesReadLoop(w: World, id: ClientId, inputs: seq<Inbound>, decode: Decoder)
    requires id in w.connected && id !in w.pending && id !in w.ended
    ensures var r := Execute(w, Solo(id, inputs), decode);
            var run := ReadLoop(w.hub.history, id, inputs, decode);
            && r.hub.history == run.history
            && (id in r.ended <==> run.closed)
            && (run.closed ==> id !in r.hub.clients)
            && r.pending == w.pending
    decreases |inputs|
  {
    if |inputs| > 0 {
      var w2 := Step(Step(w, Receive(id, inputs[0]), decode), Accept(id), decode);
      ExecuteTwo(w, Receive(id, inputs[0]), Accept(id), Solo(id, inputs[1..]), decode);
      SoloStep(w, id, inputs[0], decode);
      match ReadFrame(inputs[0], decode)
      case Some(m) =>
        SoloMatchesReadLoop(w2, id, inputs[1..], decode);
      case None =>
        SoloAfterEnd(w2, id, inputs[1..], decode);
    }
  }
}

=== FILE: wrappers.dfy ===
/** The optional-value datatype used for the partial operations of the model
    (a payload that may not decode, a read that may fail). */
module Wrappers {

  /** Either nothing, or exactly one value. */
  datatype Option<+T> = None | Some(value: T)
}
